=== FILE: README.md ===
# Cambio game engine — a Dafny model

This project models the core of a Cambio card-game server: the 52-card deck and
its text form, the scoring of cards, dealing a new game, the move validator, the
move executor for the four moves (`draw_deck`, `draw_discard_swap`, `peek`,
`call_cambio`), the in-memory store of games keyed by id, and the masked board
view that is handed to an automated player.

Modules, in dependency order:

- `Wrappers` (`wrappers.dfy`): `Option` and `Result`.
- `Sequences` (`sequences.dfy`): distinctness, first index of an element, element
  counts of a sequence without repeats.
- `Decimal` (`decimal.dfy`): `str` of a natural number and `int` of a digit string,
  with their round trip. They are used for the `p1`, `p2`, … player ids, for the
  slot number in log entries and for numeric ranks.
- `Cards` (`cards.dfy`): suits, ranks, cards and their text (`"10H"`, `"QS"`), the
  scoring value, the fresh deck in source order, and what a shuffled deck is.
- `Game` (`game.dfy`): players, slots, the game state, the state invariant, the
  deal, validation, the four move effects, and `Step`. `Step` validates a move and
  applies it: it logs the move and passes the turn, or ends the round. The
  module also has the card bookkeeping: which cards are in play, and which card
  a draw from the deck takes out of play.
- `Rounds` (`rounds.dfy`): replaying a sequence of moves against one game. It
  holds the properties across moves (history length, card conservation,
  terminal round end, alternation with two players) and a two-player round
  played move by move.
- `Store` (`store.dfy`): the map from game id to state with `create_game`,
  `get_state`, `validate_move` and `apply_move`.
- `Board` (`board.dfy`): the agent view produced by `tool_get_board`.

The shuffled deck and the game id are parameters, so randomness and uuid
generation are not modelled. The shuffled deck is any permutation of the fresh
deck (`Cards.IsShuffle`). Functions return new values. This stands in for the
`deepcopy` calls that keep callers from aliasing the stored state.

The model follows the code as written:

- `create_game` with an empty name list deals to the two default names
  `Player1` and `Player2`. Any non-empty list is dealt as given, so a single
  name gives a one-player game.
- `create_game` with more than 13 names runs past the 52-card deck and raises
  `IndexError`. The model returns this as `Failure("list index out of range")`.
- `validate_move` refuses with the reasons `"Game not found"`,
  `"Round has ended"`, `"Draw pile is empty"`, `"No card in discard pile"`,
  `"Invalid slot"` and `"Unknown move type: "` followed by the type.
- The empty-pile check of `validate_move` reads `draw_pile_count`, not the
  pile. The invariant `Game.Inv` keeps the two equal.

A `draw_deck` covers the previous discard top. That card leaves play. The model
accounts for it with `Game.Removed`, so conservation reads: the cards in play,
plus the cards removed, are the cards dealt.

`Step` and `ApplyMove` require the state invariant `Game.Inv`:

- at least one player;
- four slots per hand;
- `draw_pile_count` equals the pile length;
- distinct player ids;
- the current player exists.

The requirement is justified by reachability. Every state that `create_game`
stores satisfies the invariant (`Store.CreateGameKeepsGood`), and `apply_move`
keeps it (`Store.ApplyMoveKeepsGood`). The only other way to change a stored
state is `patch_state` (state_store.py:86-93), which is left out.

## Model

| member | source | states |
|---|---|---|
| Cards.FreshDeck | state_store.py:11-13 | the fresh deck has 52 cards, holds every card, and has no repeats |
| Cards.Token | state_store.py:13 | a card's text is its rank text followed by one suit letter, 2 or 3 characters long |
| Cards.TokenInjective | state_store.py:13 | two cards have the same text exactly when they are the same card |
| Cards.FreshDeckTokensDistinct | state_store.py:11-13 | the 52 card texts of the fresh deck are pairwise different |
| Cards.ShuffleHoldsEachCardOnce | state_store.py:13-14 | a shuffled deck has 52 cards and holds each card exactly once |
| Cards.Value | state_store.py:17-30 | a card is worth 0 to 12 points, and 0 exactly for a king |
| Cards.ValueDeterminesRank | state_store.py:22-30 | two cards score the same exactly when they have the same rank |
| Cards.TextValue | state_store.py:17-30 | scoring card text: the empty card is worth 0, and no text scores below 0 |
| Cards.TextValueOfToken | state_store.py:17-30 | on every card's text, text scoring gives the card's value: K 0, A 1, 2 to 10 at face value, J 11, Q 12 |
| Decimal.FromToDecimal | state_store.py:30 | `int` of the decimal text of n is n |
| Decimal.ToDecimalInjective | state_store.py:55 | different numbers have different decimal texts |
| Game.KindOf | state_store.py:104-128 | the move type selects `draw_deck`, `draw_discard_swap`, `peek` or `call_cambio` exactly when it is that name; anything else, a missing type included, is unknown |
| Game.Description | state_store.py:145-183 | the log text of an accepted move is "drew from deck" or "called Cambio!", or, for a swap or a peek, a fixed text followed by the slot number as a single digit, which parses back to the slot |
| Decimal.ToDecimal | state_store.py:55 | `str(n)` of a natural number is a non-empty string of digits with no leading zero (the canonical spelling) |
| Decimal.FromDecimal | state_store.py:30 | on ASCII text, `int` succeeds exactly on a non-empty string of ASCII digits |
| Game.PlayerIdInjective | state_store.py:55 | the ids `p1`, `p2`, … of different seats differ |
| Game.CurrentIndex | state_store.py:137 | exactly one player has the current player's id, at the returned position |
| Game.Deal | state_store.py:34-77 | dealing fails exactly when the deck has fewer than 4 cards per player. On success: default names for an empty list; ids `p1`…`pn`, names, seats and zero scores in order; player i gets deck cards 4i to 4i+3 with slots 0 and 2 visible and 1 and 3 hidden; the rest of the deck is the pile and its count; no discard; `p1` to move; awaiting action; empty history; the invariant holds; the cards in play are the deck |
| Game.Validate | state_store.py:101-128 | once the round has ended every move is refused with "Round has ended". `draw_deck` is refused exactly when the pile count is 0. `draw_discard_swap` is refused for an empty discard before the slot is looked at, then for a slot outside 0..3 or missing. `peek` is refused exactly for a bad or missing slot. `call_cambio` is always accepted. Any other type is refused with a reason naming it |
| Game.DrawFromDeck | state_store.py:141-144 | the pile loses its front card, which becomes the discard top; the count follows the pile; the old discard leaves play and no other card moves |
| Game.SwapWithDiscard | state_store.py:151-155 | only the chosen slot changes; it holds the old discard top, face up; the slot's old card is the new discard top; the cards in play are unchanged |
| Game.PeekAt | state_store.py:162-164 | only the chosen slot changes: it becomes visible with the same card; peeking at a visible slot changes nothing; the cards in play are unchanged |
| Game.HandValue | state_store.py:176 | a hand scores between 0 and 12 per card, and 0 exactly when every card is a king |
| Game.HandValueOfFour | state_store.py:176 | a four-slot hand scores the sum of its four card values |
| Game.HandValueOfCards | state_store.py:176 | a hand's score depends only on its cards, not on which are visible |
| Game.RevealAndScore | state_store.py:173-176 | every slot of every player becomes visible with its card unchanged; each score becomes the hand's value; nothing else changes: phase, variant, pile, discard, turn, log, id, seats and the cards in play all stay |
| Game.PassTurn | state_store.py:186-189 | the turn passes to the next player in list order, wrapping from the last to the first, and one record is logged |
| Game.EndRound | state_store.py:171-184 | the call is logged; the phase becomes round end; the current player stays; every card is shown and every player scored; pile, discard and cards in play are unchanged |
| Game.Execute | state_store.py:136-191 | a validated non-terminal move keeps the invariant, logs one record numbered after the previous ones for the mover, passes the turn to the next seat, and keeps the round open. The cards in play plus what the move removed are the cards before |
| Game.Step | state_store.py:130-191 | a move is refused exactly when validation refuses it, with the same reason. An accepted move keeps the invariant and appends one record for the current player, numbered one past the old length. The round ends exactly on `call_cambio`, and then the turn stays; otherwise it passes to the next player |
| Game.StepKeepsSeating | state_store.py:130-191 | an accepted move keeps the players, their order, ids, names, seats and hand sizes |
| Game.StepRotatesTurn | state_store.py:186-189 | after a non-terminal move the current player's position is the old one plus one, modulo the player count |
| Game.StepConservesCards | state_store.py:141-184 | an accepted move neither creates nor duplicates a card; only the covered discard top leaves play |
| Game.DrawDeckEffect | state_store.py:141-149 | `draw_deck` on an open round with cards left is accepted: the front card becomes the discard top, the pile shrinks by one, and no hand changes |
| Game.SwapEffect | state_store.py:151-160 | `draw_discard_swap` with a discard and a slot in 0..3 is accepted: the discard lands face up in the mover's slot and the slot's card becomes the discard; no other slot changes |
| Game.PeekEffect | state_store.py:162-169 | `peek` at a slot in 0..3 is accepted: that slot of the mover becomes visible with the same card, and nothing else changes |
| Game.CallCambioEffect | state_store.py:171-184 | `call_cambio` on an open round is accepted and ends it: every slot is shown with its card, every player is scored on their hand, and the piles stay |
| Rounds.After | state_store.py:130-134 | submitting one move keeps the invariant and only extends the log; in an ended round it changes nothing |
| Rounds.RemovedBy | state_store.py:141-144 | what one submitted move takes out of play, together with the cards in play after it, is the cards in play before it |
| Rounds.Replay | state_store.py:130-191 | submitting any sequence of moves keeps the invariant and only extends the log; in an ended round nothing changes |
| Rounds.HistoryCountsAcceptedMoves | state_store.py:145-183 | the log grows by exactly the number of accepted moves |
| Rounds.CardsConserved | state_store.py:141-184 | over any sequence of moves, the cards in play at the end plus those taken out of play are the cards at the start |
| Rounds.EveryCardAccountedFor | state_store.py:38-68 | in a game dealt from a shuffled deck, after any moves, each of the 52 cards is in play once or was removed once, never both |
| Rounds.RoundEndIsTerminal | state_store.py:101-102 | once the round has ended every move is refused with "Round has ended" |
| Rounds.TwoPlayersAlternate | state_store.py:186-189 | with two players the turn alternates between them after every non-terminal accepted move |
| Rounds.PeekIdempotent | state_store.py:162-164 | peeking at a slot that is already visible leaves every hand as it was |
| Rounds.OpeningDeal | state_store.py:34-72 | with no names and a shuffled deck two players `p1` and `p2` are dealt; 44 cards remain, the ninth card of the deck on top; `p1` moves first |
| Rounds.OpeningDraw | state_store.py:141-149 | the first of two players draws from the deck: pile count down by one, its top card on the discard, one record, the turn to the second player |
| Rounds.SecondPeek | state_store.py:162-169 | the second of two players peeks at slot 1: it becomes visible, no card moves, one record, the turn back to the first player |
| Rounds.ClosingCall | state_store.py:171-184 | calling Cambio with two players ends the round: one record, all eight slots visible, each score the hand's value |
| Store.CreateGame | state_store.py:32-80 | creation fails exactly when the deck is too short for the players. On success the new id maps to the dealt state and every other stored game is untouched |
| Store.CreateGameCapacity | state_store.py:43-68 | with a shuffled deck creation succeeds exactly for at most 13 players, and then the pile count plus 4 per player is 52 |
| Store.CreateGameKeepsGood | state_store.py:79 | storing a new game keeps every stored game within the invariant |
| Store.GetState | state_store.py:82-84 | reading gives the stored state, or nothing exactly when the id is unknown |
| Store.GetStateAfterCreate | state_store.py:79-84 | a game just created reads back as the dealt state |
| Store.ValidateMove | state_store.py:95-99 | an unknown id is refused with "Game not found"; otherwise the stored state's validation decides |
| Store.ApplyMove | state_store.py:130-136 | a move is refused exactly when validation refuses it, with its reason, and then the store is unchanged. An accepted move stores and returns the new state of that game alone |
| Store.ApplyMoveKeepsGood | state_store.py:130-191 | applying any move keeps every stored game within the invariant |
| Store.ApplyMoveIsolated | state_store.py:136 | a move leaves every other game as it was, and the returned state is the one stored |
| Store.ApplyMoveLogsOnce | state_store.py:145-183 | an accepted move logs one record, numbered after the previous ones, for the player whose turn it was; only `call_cambio` reports the round's end |
| Board.PhaseText | agent_tools.py:15 | the phase reads `round_end` exactly at the end of a round and `awaiting_action` otherwise |
| Board.Project | agent_tools.py:12-40 | the view copies game id, current player, phase, pile count and discard text. Players appear in order with their id, name and one entry per slot in slot order. A visible slot shows its card text and value; a hidden one shows `"unknown"` and `"?"` |
| Board.GetBoard | agent_tools.py:5-9 | an unknown id yields the error "Game not found"; otherwise the view of the stored state |
| Board.TokenIsNotUnknown | agent_tools.py:36-37 | no card's text is `"unknown"` |
| Board.MaskedIffHidden | agent_tools.py:28-39 | a slot shows `"unknown"`, and the value `"?"`, exactly when it is hidden |
| Board.VisibleSlotFaithful | agent_tools.py:28-33 | a visible slot's text names exactly its card, and the value shown is what scoring that text gives |
| Board.HiddenCardsInvisible | agent_tools.py:27-39 | two states that differ only in hidden cards and in what the view omits have the same view |
| Board.ViewDeterminesVisibleCards | agent_tools.py:27-33 | two states with the same view have the same visible slots holding the same cards |
| Board.DealtBoard | agent_tools.py:27-39 | on a freshly dealt board slots 0 and 2 of every hand are shown, and slots 1 and 3 are masked |
| Board.NothingMaskedAfterCambio | agent_tools.py:27-33 | after `call_cambio` the view reads `round_end` and every slot shows its card and value |

## Left out

- `patch_state` (state_store.py:86-93): a free dictionary merge that bypasses validation and can break every invariant.
- `random.shuffle` and `uuid.uuid4`: the shuffled deck and the game id are parameters.
- The `metadata` entry of a new game: a fixed timestamp and round number that nothing reads or updates.
- `tool_apply_move` and `create_agent_tools`: JSON and tool-registration wrappers around `apply_move` and `tool_get_board`. The view is a datatype, not JSON text.
- `main.py` (HTTP routing) and `agent_play.py` (the language-model player): transport and foreign calls.
- Concurrency: the store is modelled as a value passed from call to call, so every call is sequential.
- Moves are modelled with a text `type` (or none) and an integer `slot` (or none). Other Python values are not modelled. A text slot makes the comparison in `validate_move` raise `TypeError`. A float slot such as `1.5` passes validation and fails later at the list index in `apply_move`. `True` and `False` act as slots 1 and 0, and the log then reads `slot True`. A `type` that is not text, such as `5`, is refused with its Python spelling in the reason (`"Unknown move type: 5"`).
- Cards.TextValue: its own contract states only the empty card and the lower bound; the values on real card texts are stated by `Cards.TextValueOfToken`. `int` is modelled on strings of ASCII digits only. Python's `int` also accepts signs, surrounding spaces, underscores and non-ASCII digits. No card text produced by the deck contains any of those.
- Decimal.FromDecimal: models `int` on strings of ASCII digits only; Python's `int` also accepts a sign, surrounding spaces, underscores and non-ASCII digits. This is harmless here: every rank text the deck produces is an ASCII digit string or one of `A`, `J`, `Q`, `K`, and every slot number `str` produces is an ASCII digit string.
- Game.Step: requires the state invariant, which every state reachable without `patch_state` satisfies. States that break it are not modelled. On some of them the source raises, for example `StopIteration` when the current player is missing. On others it runs on: with duplicate ids it picks the first match, and a longer hand is peeked and scored as it is. On a shorter hand a `peek` or `draw_discard_swap` at a slot the hand lacks passes validation, because the check `slot > 3` does not look at the hand's length, and then raises `IndexError`; `call_cambio` scores a hand of any size.
- `tool_get_board` as written: agent_tools.py imports neither `get_state` nor `get_card_value`, so the function as written raises `NameError` on every call. `Board.GetBoard` and `Board.Project` assume the state_store.py versions of both functions.

=== FILE: board.dfy ===
/** The board view handed to an agent: the game state with every hidden
    card masked, and every visible card shown with its scoring value. */
module Board {
  import opened Wrappers
  import opened Cards
  import opened Game
  import opened Store

  /** A slot's value in the view: a number, or the mask `"?"`. */
  datatype Points = Points(n: int) | QuestionMark

  datatype SlotView = SlotView(slot: nat, card: string, value: Points)

  datatype PlayerView = PlayerView(playerId: string, name: string, hand: seq<SlotView>)

  datatype View = View(
    gameId: string,
    currentPlayer: string,
    turnPhase: string,
    players: seq<PlayerView>,
    topDiscard: Option<string>,
    drawPileCount: int)

  datatype BoardResult = Board(view: View) | Missing(error: string)

  /** The card text that stands for a hidden card. */
  const Unknown: string := "unknown"

  function PhaseText(p: Phase): (t: string)
    ensures t == "round_end" <==> p.RoundEnd?
    ensures t == "awaiting_action" <==> p.AwaitingAction?
  {
    match p
    case AwaitingAction => "awaiting_action"
    case RoundEnd => "round_end"
  }

  function TokenOf(d: Option<Card>): Option<string>
  {
    match d
    case None => None
    case Some(c) => Some(Token(c))
  }

  /** Slot `l` of a hand as the agent sees it. */
  function SlotViewOf(l: nat, x: Slot): SlotView
  {
    if x.visible then SlotView(l, Token(x.card), Points(Value(x.card)))
    else SlotView(l, Unknown, QuestionMark)
  }

  function PlayerViewOf(p: Player): PlayerView
  {
    PlayerView(p.id, p.name, seq(|p.hand|, l requires 0 <= l < |p.hand| => SlotViewOf(l, p.hand[l])))
  }

  /** The view of a state: the scalar fields are copied, the players appear
      in order with one entry per slot in slot order; a visible slot shows
      its card and value, a hidden one shows `"unknown"` and `"?"`. */
  function Project(s: GameState): (v: View)
    ensures v.gameId == s.gameId && v.currentPlayer == s.currentPlayer
    ensures v.turnPhase == PhaseText(s.phase) && v.drawPileCount == s.drawPileCount
    ensures v.topDiscard.None? <==> s.topDiscard.None?
    ensures s.topDiscard.Some? ==> v.topDiscard == Some(Token(s.topDiscard.value))
    ensures |v.players| == |s.players|
    ensures forall j :: 0 <= j < |s.players| ==>
              && v.players[j].playerId == s.players[j].id
              && v.players[j].name == s.players[j].name
              && |v.players[j].hand| == |s.players[j].hand|
    ensures forall j, l :: 0 <= j < |s.players| && 0 <= l < |s.players[j].hand| ==>
              && v.players[j].hand[l].slot == l
              && (s.players[j].hand[l].visible ==>
                    v.players[j].hand[l].card == Token(s.players[j].hand[l].card)
                    && v.players[j].hand[l].value == Points(Value(s.players[j].hand[l].card)))
              && (!s.players[j].hand[l].visible ==>
                    v.players[j].hand[l] == SlotView(l, Unknown, QuestionMark))
  {
    View(s.gameId, s.currentPlayer, PhaseText(s.phase),
         seq(|s.players|, j requires 0 <= j < |s.players| => PlayerViewOf(s.players[j])),
         TokenOf(s.topDiscard), s.drawPileCount)
  }

  /** `tool_get_board`: the view of a stored game, or an error for an
      unknown id. */
  function GetBoard(games: Games, gameId: string): (r: BoardResult)
    ensures r.Missing? <==> GetState(games, gameId).None?
    ensures r.Missing? ==> r.error == "Game not found"
    ensures r.Board? ==> r.view == Project(games[gameId])
  {
    match GetState(games, gameId)
    case None => Missing("Game not found")
    case Some(s) => Board(Project(s))
  }

  /** A card text never reads as the mask. */
  lemma TokenIsNotUnknown(c: Card)
    ensures Token(c) != Unknown
  {
    assert |Unknown| == 7;
  }

  /** The view tells exactly which slots are visible. */
  lemma MaskedIffHidden(s: GameState, j: nat, l: nat)
    requires j < |s.players| && l < |s.players[j].hand|
    ensures Project(s).players[j].hand[l].card == Unknown <==> !s.players[j].hand[l].visible
    ensures Project(s).players[j].hand[l].value.QuestionMark? <==> !s.players[j].hand[l].visible
  {
    TokenIsNotUnknown(s.players[j].hand[l].card);
  }

  /** A visible slot's entry names its card unambiguously, and its value is
      what the scoring function gives for that card's text. */
  lemma VisibleSlotFaithful(s: GameState, j: nat, l: nat, c: Card)
    requires j < |s.players| && l < |s.players[j].hand| && s.players[j].hand[l].visible
    ensures Project(s).players[j].hand[l].card == Token(c) <==> c == s.players[j].hand[l].card
    ensures TextValue(Project(s).players[j].hand[l].card) == Some(Project(s).players[j].hand[l].value.n)
  {
    TokenInjective(c, s.players[j].hand[l].card);
    TextValueOfToken(s.players[j].hand[l].card);
  }

  /** Two states that agree on everything the view shows: they may differ
      in the cards of hidden slots and in what the view leaves out. */
  predicate SameButHidden(s: GameState, t: GameState)
  {
    && s.gameId == t.gameId && s.currentPlayer == t.currentPlayer && s.phase == t.phase
    && s.topDiscard == t.topDiscard && s.drawPileCount == t.drawPileCount
    && |s.players| == |t.players|
    && forall j :: 0 <= j < |s.players| ==>
         && s.players[j].id == t.players[j].id
         && s.players[j].name == t.players[j].name
         && |s.players[j].hand| == |t.players[j].hand|
         && forall l :: 0 <= l < |s.players[j].hand| ==>
              && s.players[j].hand[l].visible == t.players[j].hand[l].visible
              && (s.players[j].hand[l].visible ==> s.players[j].hand[l].card == t.players[j].hand[l].card)
  }

  /** Such states have the same view: the view reveals nothing about a
      hidden card. */
  lemma HiddenCardsInvisible(s: GameState, t: GameState)
    requires SameButHidden(s, t)
    ensures Project(s) == Project(t)
  {
    var v, w := Project(s), Project(t);
    forall j | 0 <= j < |s.players|
      ensures v.players[j] == w.players[j]
    {
      assert v.players[j].hand == w.players[j].hand;
    }
    assert v.players == w.players;
  }

  /** Conversely, two states whose views agree agree on every visible card. */
  lemma ViewDeterminesVisibleCards(s: GameState, t: GameState, j: nat, l: nat)
    requires Project(s) == Project(t)
    requires j < |s.players| && l < |s.players[j].hand| && s.players[j].hand[l].visible
    ensures j < |t.players| && l < |t.players[j].hand| && t.players[j].hand[l].visible
    ensures t.players[j].hand[l].card == s.players[j].hand[l].card
  {
    MaskedIffHidden(s, j, l);
    MaskedIffHidden(t, j, l);
    TokenInjective(s.players[j].hand[l].card, t.players[j].hand[l].card);
  }

  /** A freshly dealt board shows slots 0 and 2 of every hand and masks
      slots 1 and 3. */
  lemma DealtBoard(gameId: string, names: seq<string>, deck: seq<Card>, j: nat)
    requires Deal(gameId, names, deck).Success?
    requires j < |Names(names)|
    ensures var v := Project(Deal(gameId, names, deck).value);
            && |v.players[j].hand| == HandSize
            && v.players[j].hand[0].card != Unknown && v.players[j].hand[2].card != Unknown
            && v.players[j].hand[1] == SlotView(1, Unknown, QuestionMark)
            && v.players[j].hand[3] == SlotView(3, Unknown, QuestionMark)
  {
    var s := Deal(gameId, names, deck).value;
    MaskedIffHidden(s, j, 0);
    MaskedIffHidden(s, j, 2);
  }

  /** Once Cambio is called nothing on the board is masked, and every slot
      shows the card it held before the call. */
  lemma NothingMaskedAfterCambio(s: GameState, m: Move, j: nat, l: nat)
    requires Inv(s) && KindOf(m.kind).CallCambio? && s.phase.AwaitingAction?
    requires j < |s.players| && l < HandSize
    ensures Step(s, m).Accepted?
    ensures var v := Project(Step(s, m).state);
            && v.turnPhase == "round_end"
            && v.players[j].hand[l].card == Token(s.players[j].hand[l].card)
            && v.players[j].hand[l].value == Points(Value(s.players[j].hand[l].card))
  {
    CallCambioEffect(s, m);
    StepKeepsSeating(s, m);
  }
}

=== FILE: cards.dfy ===
/** Cards, their two-or-three character text form, their scoring value and
    the fresh 52-card deck. */
module Cards {
  import opened Wrappers
  import opened Sequences
  import Decimal

  datatype Suit = Hearts | Diamonds | Clubs | Spades

  datatype Rank = Ace | Two | Three | Four | Five | Six | Seven | Eight | Nine | Ten
                | Jack | Queen | King

  datatype Card = Card(rank: Rank, suit: Suit)

  /** Suit order of the fresh deck. */
  const Suits: seq<Suit> := [Hearts, Diamonds, Clubs, Spades]

  /** Rank order within one suit of the fresh deck. */
  const Ranks: seq<Rank> := [Ace, Two, Three, Four, Five, Six, Seven, Eight, Nine, Ten, Jack, Queen, King]

  function SuitChar(s: Suit): char
  {
    match s
    case Hearts => 'H'
    case Diamonds => 'D'
    case Clubs => 'C'
    case Spades => 'S'
  }

  function RankText(r: Rank): string
  {
    match r
    case Ace => "A"
    case Two => "2"
    case Three => "3"
    case Four => "4"
    case Five => "5"
    case Six => "6"
    case Seven => "7"
    case Eight => "8"
    case Nine => "9"
    case Ten => "10"
    case Jack => "J"
    case Queen => "Q"
    case King => "K"
  }

  /** The text of a card: rank followed by a one-letter suit, e.g. "10H", "QS". */
  function Token(c: Card): (t: string)
    ensures 2 <= |t| <= 3
    ensures t[|t| - 1] == SuitChar(c.suit)
    ensures t[..|t| - 1] == RankText(c.rank)
  {
    RankText(c.rank) + [SuitChar(c.suit)]
  }

  /** The scoring value of a card: K = 0, A = 1, 2..10 at face value, J = 11, Q = 12. */
  function Value(c: Card): (v: nat)
    ensures v <= 12
    ensures v == 0 <==> c.rank == King
  {
    match c.rank
    case King => 0
    case Ace => 1
    case Two => 2
    case Three => 3
    case Four => 4
    case Five => 5
    case Six => 6
    case Seven => 7
    case Eight => 8
    case Nine => 9
    case Ten => 10
    case Jack => 11
    case Queen => 12
  }

  /** Scoring as the source does it, on the text of a card: the empty card is
      worth 0, the rank is everything but the last character, and a rank other
      than K, Q, J, A goes through `int`; `None` is the `ValueError` that `int`
      raises on a rank that is not a number. */
  function TextValue(card: string): (r: Option<int>)
    ensures card == "" ==> r == Some(0)
    ensures r.Some? ==> 0 <= r.value
  {
    if card == "" then Some(0)
    else
      var rank := card[..|card| - 1];
      if rank == "K" then Some(0)
      else if rank == "Q" then Some(12)
      else if rank == "J" then Some(11)
      else if rank == "A" then Some(1)
      else match Decimal.FromDecimal(rank)
        case Some(n) => Some(n)
        case None => None
  }

  /** On the text of every real card, text scoring agrees with `Value`. */
  lemma TextValueOfToken(c: Card)
    ensures TextValue(Token(c)) == Some(Value(c))
  {
    var t := Token(c);
    assert t[..|t| - 1] == RankText(c.rank);
    match c.rank {
      case Ten =>
        assert Decimal.FromDecimal("1") == Some(1);
        assert "10"[..1] == "1";
        assert Decimal.FromDecimal("10") == Some(10);
      case _ =>
    }
  }

  /** Two cards with the same text are the same card. */
  lemma TokenInjective(a: Card, b: Card)
    ensures Token(a) == Token(b) <==> a == b
  {
    if Token(a) == Token(b) {
      var t := Token(a);
      assert SuitChar(a.suit) == t[|t| - 1] == SuitChar(b.suit);
      assert RankText(a.rank) == t[..|t| - 1] == RankText(b.rank);
    }
  }

  /** Scoring tells ranks apart: equal values mean equal ranks. */
  lemma ValueDeterminesRank(a: Card, b: Card)
    ensures Value(a) == Value(b) <==> a.rank == b.rank
  {
  }

  function RankIndex(r: Rank): (i: nat)
    ensures i < |Ranks| && Ranks[i] == r
  {
    match r
    case Ace => 0
    case Two => 1
    case Three => 2
    case Four => 3
    case Five => 4
    case Six => 5
    case Seven => 6
    case Eight => 7
    case Nine => 8
    case Ten => 9
    case Jack => 10
    case Queen => 11
    case King => 12
  }

  lemma RanksDistinct()
    ensures Distinct(Ranks)
  {
    forall i, j | 0 <= i < j < |Ranks| ensures Ranks[i] != Ranks[j] {
      assert RankIndex(Ranks[i]) == i by { RankIndexOfRanks(i); }
      RankIndexOfRanks(j);
    }
  }

  lemma RankIndexOfRanks(i: nat)
    requires i < |Ranks|
    ensures RankIndex(Ranks[i]) == i
  {
    if i == 0 {} else if i == 1 {} else if i == 2 {} else if i == 3 {} else if i == 4 {}
    else if i == 5 {} else if i == 6 {} else if i == 7 {} else if i == 8 {} else if i == 9 {}
    else if i == 10 {} else if i == 11 {} else {}
  }

  /** The thirteen cards of one suit, in rank order. */
  function SuitRow(s: Suit): seq<Card>
  {
    seq(|Ranks|, i requires 0 <= i < |Ranks| => Card(Ranks[i], s))
  }

  /** The unshuffled deck for the given suits: all ranks of the first suit,
      then all ranks of the next, and so on. */
  function DeckOf(suits: seq<Suit>): (d: seq<Card>)
    ensures |d| == 13 * |suits|
    ensures forall c :: c in d <==> c.suit in suits
    ensures Distinct(suits) ==> Distinct(d)
  {
    if suits == [] then []
    else
      var row := SuitRow(suits[0]);
      var rest := DeckOf(suits[1..]);
      assert forall c: Card :: c in row <==> c.suit == suits[0] by {
        forall c: Card | c.suit == suits[0] ensures c in row {
          assert row[RankIndex(c.rank)] == c;
        }
      }
      assert Distinct(suits) ==> Distinct(row + rest) by {
        if Distinct(suits) {
          RanksDistinct();
          assert suits[0] !in suits[1..];
          assert Distinct(suits[1..]);
          var d := row + rest;
          forall i, j | 0 <= i < j < |d| ensures d[i] != d[j] {
            if j < |row| {
              assert Ranks[i] != Ranks[j];
            } else if i < |row| {
              assert d[j] in rest;
            }
          }
        }
      }
      row + rest
  }

  /** The 52 cards of a fresh deck, before shuffling: every card exactly once. */
  function FreshDeck(): (d: seq<Card>)
    ensures |d| == 52
    ensures forall c: Card :: c in d
    ensures Distinct(d)
  {
    AllSuitsListed();
    DeckOf(Suits)
  }

  lemma AllSuitsListed()
    ensures forall s: Suit :: s in Suits
  {
    forall s: Suit ensures s in Suits {
      match s
      case Hearts => assert Suits[0] == s;
      case Diamonds => assert Suits[1] == s;
      case Clubs => assert Suits[2] == s;
      case Spades => assert Suits[3] == s;
    }
  }

  /** A shuffled deck: some ordering of the fresh deck. */
  predicate IsShuffle(deck: seq<Card>)
  {
    multiset(deck) == multiset(FreshDeck())
  }

  /** Every shuffled deck has 52 distinct cards, and every card is in it exactly once. */
  lemma ShuffleHoldsEachCardOnce(deck: seq<Card>, c: Card)
    requires IsShuffle(deck)
    ensures |deck| == 52
    ensures multiset(deck)[c] == 1
  {
    DistinctCount(FreshDeck(), c);
    assert |multiset(deck)| == |multiset(FreshDeck())|;
  }

  /** The 52 card texts are pairwise different. */
  lemma FreshDeckTokensDistinct()
    ensures Distinct(seq(52, i requires 0 <= i < 52 => Token(FreshDeck()[i])))
  {
    var d := FreshDeck();
    var ts := seq(52, i requires 0 <= i < 52 => Token(d[i]));
    forall i, j | 0 <= i < j < 52 ensures ts[i] != ts[j] {
      TokenInjective(d[i], d[j]);
    }
  }
}

=== FILE: decimal.dfy ===
/** Decimal text of natural numbers: Python's `str(n)` for `n >= 0`, and
    `int(s)` on strings of ASCII digits. */
module Decimal {
  import opened Wrappers

  predicate IsDigit(c: char)
  {
    '0' <= c <= '9'
  }

  function DigitChar(d: nat): (c: char)
    requires d < 10
    ensures IsDigit(c)
  {
    ('0' as int + d) as char
  }

  function DigitValue(c: char): (d: nat)
    requires IsDigit(c)
    ensures d < 10 && DigitChar(d) == c
  {
    c as int - '0' as int
  }

  /** `str(n)`: the shortest decimal spelling, most significant digit first,
      with no leading zero. */
  function ToDecimal(n: nat): (s: string)
    ensures |s| >= 1
    ensures forall i :: 0 <= i < |s| ==> IsDigit(s[i])
    ensures |s| == 1 || s[0] != '0'
    decreases n
  {
    if n < 10 then [DigitChar(n)] else ToDecimal(n / 10) + [DigitChar(n % 10)]
  }

  /** `int(s)`; `None` stands for the `ValueError` raised on anything that is
      not a non-empty string of digits. */
  function FromDecimal(s: string): (r: Option<nat>)
    ensures r.Some? <==> |s| > 0 && forall i :: 0 <= i < |s| ==> IsDigit(s[i])
    decreases |s|
  {
    if |s| == 0 || !IsDigit(s[|s| - 1]) then None
    else if |s| == 1 then Some(DigitValue(s[0]))
    else match FromDecimal(s[..|s| - 1])
      case None => None
      case Some(v) => Some(10 * v + DigitValue(s[|s| - 1]))
  }

  /** Parsing undoes printing. */
  lemma {:induction false} FromToDecimal(n: nat)
    ensures FromDecimal(ToDecimal(n)) == Some(n)
    decreases n
  {
    if n < 10 {
      assert DigitValue(DigitChar(n)) == n;
    } else {
      var s := ToDecimal(n);
      assert s[..|s| - 1] == ToDecimal(n / 10);
      assert DigitValue(DigitChar(n % 10)) == n % 10;
      FromToDecimal(n / 10);
    }
  }

  /** Different numbers print differently. */
  lemma ToDecimalInjective(a: nat, b: nat)
    ensures ToDecimal(a) == ToDecimal(b) <==> a == b
  {
    FromToDecimal(a);
    FromToDecimal(b);
  }
}

=== FILE: game.dfy ===
/** One game of Cambio: its state, the deal, move validation and the move
    executor, as one deterministic state machine. */
module Game {
  import opened Wrappers
  import opened Sequences
  import opened Cards
  import Decimal

  /** Every hand has this many slots, indexed 0..3. */
  const HandSize: nat := 4

  const Variant: string := "cambio_standard"

  /** The players of a game created without names. */
  const DefaultNames: seq<string> := ["Player1", "Player2"]

  /** One hand position. `visible` is a single flag shared by every reader. */
  datatype Slot = Slot(card: Card, visible: bool)

  datatype Player = Player(id: string, name: string, seat: nat, hand: seq<Slot>, score: int)

  datatype Phase = AwaitingAction | RoundEnd

  /** One entry of the append-only move log; `turn` counts from 1. */
  datatype Record = Record(turn: nat, player: string, action: string)

  datatype GameState = GameState(
    gameId: string,
    variant: string,
    players: seq<Player>,
    drawPile: seq<Card>,
    drawPileCount: int,
    topDiscard: Option<Card>,
    currentPlayer: string,
    phase: Phase,
    history: seq<Record>)

  /** A proposed move: its `type` (`None` when the request carries none) and
      its `slot` (`None` when absent). */
  datatype Move = Move(kind: Option<string>, slot: Option<int>)

  /** The move types the game knows, and everything else. */
  datatype MoveKind = DrawDeck | DrawDiscardSwap | Peek | CallCambio | UnknownKind

  /** Reads the `type` of a request: each of the four move names selects its
      move, and anything else, a missing type included, is unknown. */
  function KindOf(kind: Option<string>): (k: MoveKind)
    ensures k.DrawDeck? <==> kind == Some("draw_deck")
    ensures k.DrawDiscardSwap? <==> kind == Some("draw_discard_swap")
    ensures k.Peek? <==> kind == Some("peek")
    ensures k.CallCambio? <==> kind == Some("call_cambio")
  {
    if kind == Some("draw_deck") then DrawDeck
    else if kind == Some("draw_discard_swap") then DrawDiscardSwap
    else if kind == Some("peek") then Peek
    else if kind == Some("call_cambio") then CallCambio
    else UnknownKind
  }

  /** What validation says of a move; `Reject` carries the reason. */
  datatype Verdict = Accept | Reject(reason: string)

  /** What applying a move gives: the reason it was refused, or the new state
      and whether the round has ended. */
  datatype Outcome = Rejected(reason: string) | Accepted(state: GameState, roundEnd: bool)

  /** The id of the player dealt in position `i`: "p1", "p2", ... */
  function PlayerId(i: nat): (id: string)
    ensures |id| >= 2 && id[0] == 'p'
  {
    "p" + Decimal.ToDecimal(i + 1)
  }

  /** Player ids name their positions one-to-one. */
  lemma PlayerIdInjective(i: nat, j: nat)
    ensures PlayerId(i) == PlayerId(j) <==> i == j
  {
    assert PlayerId(i)[1..] == Decimal.ToDecimal(i + 1);
    assert PlayerId(j)[1..] == Decimal.ToDecimal(j + 1);
    Decimal.ToDecimalInjective(i + 1, j + 1);
  }

  function Ids(ps: seq<Player>): seq<string>
  {
    seq(|ps|, i requires 0 <= i < |ps| => ps[i].id)
  }

  /** What every state created by `Deal` and changed only by `Step` satisfies:
      at least one player, 4-slot hands, the pile count mirrors the pile,
      distinct player ids, and the current player exists. */
  predicate Inv(s: GameState)
  {
    && |s.players| >= 1
    && (forall i :: 0 <= i < |s.players| ==> |s.players[i].hand| == HandSize)
    && s.drawPileCount == |s.drawPile|
    && Distinct(Ids(s.players))
    && s.currentPlayer in Ids(s.players)
  }

  /** The position of the player whose turn it is. */
  function CurrentIndex(s: GameState): (i: nat)
    requires Inv(s)
    ensures i < |s.players| && s.players[i].id == s.currentPlayer
    ensures forall j :: 0 <= j < |s.players| && s.players[j].id == s.currentPlayer ==> j == i
  {
    var ids := Ids(s.players);
    var i := IndexOf(ids, s.currentPlayer);
    assert forall j :: 0 <= j < |s.players| ==> ids[j] == s.players[j].id;
    i
  }

  /** Players keep their identity, order and hand sizes. */
  predicate SameSeating(ps: seq<Player>, qs: seq<Player>)
  {
    && |ps| == |qs|
    && forall j :: 0 <= j < |ps| ==>
         && qs[j].id == ps[j].id
         && qs[j].name == ps[j].name
         && qs[j].seat == ps[j].seat
         && |qs[j].hand| == |ps[j].hand|
  }

  /** Only slot `k` of player `i` may differ; scores stay as they were. */
  predicate OnlySlotChanged(ps: seq<Player>, qs: seq<Player>, i: nat, k: nat)
  {
    && SameSeating(ps, qs)
    && (forall j :: 0 <= j < |ps| ==> qs[j].score == ps[j].score)
    && forall j, l :: 0 <= j < |ps| && 0 <= l < |ps[j].hand| && (j != i || l != k) ==>
         qs[j].hand[l] == ps[j].hand[l]
  }

  lemma SameSeatingKeepsInv(s: GameState, t: GameState)
    requires Inv(s) && SameSeating(s.players, t.players)
    requires t.drawPileCount == |t.drawPile| && t.currentPlayer == s.currentPlayer
    ensures Inv(t)
  {
    assert Ids(t.players) == Ids(s.players);
  }

  // ---------------------------------------------------------------------------
  // Cards in play

  function CardsOf(h: seq<Slot>): seq<Card>
  {
    seq(|h|, j requires 0 <= j < |h| => h[j].card)
  }

  /** The union of a sequence of multisets. */
  function UnionAll(xs: seq<multiset<Card>>): multiset<Card>
  {
    if xs == [] then multiset{} else xs[0] + UnionAll(xs[1..])
  }

  /** Replacing one member changes the union by that member only. */
  lemma {:induction false} UnionAllUpdate(xs: seq<multiset<Card>>, i: nat, x: multiset<Card>)
    requires i < |xs|
    ensures UnionAll(xs[i := x]) + xs[i] == UnionAll(xs) + x
    decreases |xs|
  {
    if i == 0 {
      assert xs[i := x][1..] == xs[1..];
    } else {
      assert xs[i := x][1..] == xs[1..][i - 1 := x];
      assert xs[1..][i - 1] == xs[i];
      UnionAllUpdate(xs[1..], i - 1, x);
      var a, a' := UnionAll(xs[1..]), UnionAll(xs[1..][i - 1 := x]);
      assert UnionAll(xs[i := x]) == xs[0] + a';
      assert UnionAll(xs) == xs[0] + a;
      assert a' + xs[i] == a + x;
      assert (xs[0] + a') + xs[i] == xs[0] + (a' + xs[i]);
      assert (xs[0] + a) + x == xs[0] + (a + x);
    }
  }

  /** Multiset bookkeeping: a change of `x` into `y` on one side can be traded
      for the change of `p` into `q` that turned `y` back into `x`. */
  lemma Exchange(a: multiset<Card>, b: multiset<Card>, x: multiset<Card>, y: multiset<Card>,
                 p: multiset<Card>, q: multiset<Card>)
    requires a + x == b + y && y + p == x + q
    ensures a + p == b + q
  {
    forall e ensures (a + p)[e] == (b + q)[e] {
      assert (a + x)[e] == (b + y)[e];
      assert (y + p)[e] == (x + q)[e];
    }
  }

  function HandsCards(ps: seq<Player>): seq<multiset<Card>>
  {
    seq(|ps|, j requires 0 <= j < |ps| => multiset(CardsOf(ps[j].hand)))
  }

  /** All cards in all hands. */
  function TableCards(ps: seq<Player>): multiset<Card>
  {
    UnionAll(HandsCards(ps))
  }

  function DiscardCards(d: Option<Card>): multiset<Card>
  {
    if d.Some? then multiset{d.value} else multiset{}
  }

  /** Every card still in the game: draw pile, all hands and the discard top. */
  function CardsInPlay(s: GameState): multiset<Card>
  {
    multiset(s.drawPile) + TableCards(s.players) + DiscardCards(s.topDiscard)
  }

  lemma TableCardsCons(ps: seq<Player>)
    requires ps != []
    ensures TableCards(ps) == multiset(CardsOf(ps[0].hand)) + TableCards(ps[1..])
  {
    assert HandsCards(ps)[1..] == HandsCards(ps[1..]);
  }

  /** Replacing one player changes the table by that player's hand only. */
  lemma TableCardsUpdate(ps: seq<Player>, i: nat, p: Player)
    requires i < |ps|
    ensures TableCards(ps[i := p]) + multiset(CardsOf(ps[i].hand))
         == TableCards(ps) + multiset(CardsOf(p.hand))
  {
    assert HandsCards(ps[i := p]) == HandsCards(ps)[i := multiset(CardsOf(p.hand))];
    UnionAllUpdate(HandsCards(ps), i, multiset(CardsOf(p.hand)));
  }

  /** Tables whose hands hold the same cards, player by player, hold the same cards. */
  lemma {:induction false} TableCardsSame(ps: seq<Player>, qs: seq<Player>)
    requires |ps| == |qs|
    requires forall j :: 0 <= j < |ps| ==> CardsOf(qs[j].hand) == CardsOf(ps[j].hand)
    ensures TableCards(qs) == TableCards(ps)
    decreases |ps|
  {
    if ps != [] {
      TableCardsCons(ps);
      TableCardsCons(qs);
      TableCardsSame(ps[1..], qs[1..]);
    }
  }

  /** Hands dealt in groups of four from the front of `deck` hold exactly
      the first `4 * |ps|` cards. */
  lemma {:induction false} TableCardsDealt(ps: seq<Player>, deck: seq<Card>)
    requires HandSize * |ps| <= |deck|
    requires forall j :: 0 <= j < |ps| ==>
               CardsOf(ps[j].hand) == deck[HandSize * j..HandSize * j + HandSize]
    ensures TableCards(ps) == multiset(deck[..HandSize * |ps|])
    decreases |ps|
  {
    if ps != [] {
      var rest := deck[HandSize..];
      forall j | 0 <= j < |ps[1..]|
        ensures CardsOf(ps[1..][j].hand) == rest[HandSize * j..HandSize * j + HandSize]
      {
        assert CardsOf(ps[j + 1].hand) == deck[HandSize * (j + 1)..HandSize * (j + 1) + HandSize];
      }
      TableCardsCons(ps);
      TableCardsDealt(ps[1..], rest);
      assert deck[..HandSize * |ps|] == deck[..HandSize] + rest[..HandSize * |ps[1..]|];
    }
  }

  // ---------------------------------------------------------------------------
  // Creating a game

  /** An empty name list falls back to two default players. */
  function Names(names: seq<string>): (ns: seq<string>)
    ensures |ns| >= 1
    ensures names != [] ==> ns == names
  {
    if names == [] then DefaultNames else names
  }

  /** The four cards from position `at`; slots 0 and 2 start visible. */
  function DealtHand(deck: seq<Card>, at: nat): seq<Slot>
    requires at + HandSize <= |deck|
  {
    [Slot(deck[at], true), Slot(deck[at + 1], false), Slot(deck[at + 2], true), Slot(deck[at + 3], false)]
  }

  function DealPlayers(ns: seq<string>, deck: seq<Card>): seq<Player>
    requires HandSize * |ns| <= |deck|
  {
    seq(|ns|, i requires 0 <= i < |ns| => Player(PlayerId(i), ns[i], i, DealtHand(deck, HandSize * i), 0))
  }

  /** The visibility every hand starts with: slots 0 and 2 shown, 1 and 3 hidden. */
  predicate DealtVisibility(h: seq<Slot>)
  {
    |h| == HandSize && h[0].visible && !h[1].visible && h[2].visible && !h[3].visible
  }

  /** What the dealt players look like: ids "p1".. in order, the given names,
      the dealt visibility, and cards taken four at a time from the deck. */
  lemma DealtPlayers(ns: seq<string>, deck: seq<Card>)
    requires 1 <= |ns| && HandSize * |ns| <= |deck|
    ensures var ps := DealPlayers(ns, deck);
      && |ps| == |ns|
      && (forall i :: 0 <= i < |ns| ==>
            && ps[i].id == PlayerId(i)
            && ps[i].name == ns[i]
            && ps[i].seat == i
            && ps[i].score == 0
            && DealtVisibility(ps[i].hand))
      && (forall i, j :: 0 <= i < |ns| && 0 <= j < HandSize ==>
            ps[i].hand[j].card == deck[HandSize * i + j])
      && Distinct(Ids(ps))
      && Ids(ps)[0] == "p1"
      && TableCards(ps) == multiset(deck[..HandSize * |ns|])
  {
    var ps := DealPlayers(ns, deck);
    assert Decimal.ToDecimal(1) == "1";
    forall i, j | 0 <= i < j < |ps| ensures Ids(ps)[i] != Ids(ps)[j] {
      PlayerIdInjective(i, j);
    }
    forall j | 0 <= j < |ps|
      ensures CardsOf(ps[j].hand) == deck[HandSize * j..HandSize * j + HandSize]
    {
    }
    TableCardsDealt(ps, deck);
  }

  /** A new game: four cards each, dealt in turn from the front of the deck,
      the rest becoming the draw pile. It fails, as indexing past the end of
      the deck does, when the deck is too short for the players. */
  function Deal(gameId: string, names: seq<string>, deck: seq<Card>): (r: Result<GameState>)
    ensures r.Failure? <==> HandSize * |Names(names)| > |deck|
    ensures r.Success? ==>
      var s := r.value;
      var ns := Names(names);
      && Inv(s)
      && s.gameId == gameId && s.variant == Variant
      && |s.players| == |ns|
      && (forall i :: 0 <= i < |ns| ==>
            && s.players[i].id == PlayerId(i)
            && s.players[i].name == ns[i]
            && s.players[i].seat == i
            && s.players[i].score == 0
            && DealtVisibility(s.players[i].hand))
      && (forall i, j :: 0 <= i < |ns| && 0 <= j < HandSize ==>
            s.players[i].hand[j].card == deck[HandSize * i + j])
      && s.drawPile == deck[HandSize * |ns|..]
      && s.drawPileCount == |deck| - HandSize * |ns|
      && s.topDiscard == None
      && s.currentPlayer == PlayerId(0) == "p1"
      && s.phase.AwaitingAction?
      && s.history == []
      && CardsInPlay(s) == multiset(deck)
  {
    var ns := Names(names);
    if HandSize * |ns| > |deck| then Failure("list index out of range")
    else
      var ps := DealPlayers(ns, deck);
      var pile := deck[HandSize * |ns|..];
      DealtPlayers(ns, deck);
      assert deck == deck[..HandSize * |ns|] + pile;
      assert PlayerId(0) == "p1" by { assert Decimal.ToDecimal(1) == "1"; }
      Success(GameState(gameId, Variant, ps, pile, |pile|, None, "p1", AwaitingAction, []))
  }

  // ---------------------------------------------------------------------------
  // Validation

  /** A slot given, and within 0..3. */
  predicate SlotInRange(slot: Option<int>)
  {
    slot.Some? && 0 <= slot.value <= 3
  }

  /** How a move type prints in a rejection: the type itself, or "None". */
  function KindText(kind: Option<string>): string
  {
    if kind.Some? then kind.value else "None"
  }

  /** The legality check. It reads the state and returns a verdict; it changes nothing. */
  function Validate(s: GameState, m: Move): (v: Verdict)
    ensures s.phase.RoundEnd? ==> v == Reject("Round has ended")
    ensures v.Accept? ==> s.phase.AwaitingAction? && !KindOf(m.kind).UnknownKind?
    ensures KindOf(m.kind).DrawDeck? && s.phase.AwaitingAction? ==>
              (v.Accept? <==> s.drawPileCount != 0)
              && (v.Reject? ==> v.reason == "Draw pile is empty")
    ensures KindOf(m.kind).DrawDiscardSwap? && s.phase.AwaitingAction? ==>
              (v.Accept? <==> s.topDiscard.Some? && SlotInRange(m.slot))
              && (s.topDiscard.None? ==> v == Reject("No card in discard pile"))
              && (s.topDiscard.Some? && !SlotInRange(m.slot) ==> v == Reject("Invalid slot"))
    ensures KindOf(m.kind).Peek? && s.phase.AwaitingAction? ==>
              (v.Accept? <==> SlotInRange(m.slot))
              && (v.Reject? ==> v.reason == "Invalid slot")
    ensures KindOf(m.kind).CallCambio? && s.phase.AwaitingAction? ==> v.Accept?
    ensures KindOf(m.kind).UnknownKind? && s.phase.AwaitingAction? ==>
              v == Reject("Unknown move type: " + KindText(m.kind))
  {
    if s.phase.RoundEnd? then Reject("Round has ended")
    else
      match KindOf(m.kind)
      case DrawDeck =>
        if s.drawPileCount == 0 then Reject("Draw pile is empty") else Accept
      case DrawDiscardSwap =>
        if s.topDiscard.None? then Reject("No card in discard pile")
        else if !SlotInRange(m.slot) then Reject("Invalid slot")
        else Accept
      case Peek =>
        if !SlotInRange(m.slot) then Reject("Invalid slot") else Accept
      case CallCambio => Accept
      case UnknownKind => Reject("Unknown move type: " + KindText(m.kind))
  }

  // ---------------------------------------------------------------------------
  // The four moves, before logging and turn rotation

  /** `draw_deck`: the front of the pile becomes the discard top; the previous
      discard top, if any, leaves play. */
  function DrawFromDeck(s: GameState): (t: GameState)
    requires |s.drawPile| > 0
    ensures t.drawPile == s.drawPile[1..] && t.drawPileCount == |t.drawPile|
    ensures t.topDiscard == Some(s.drawPile[0])
    ensures t.players == s.players && t.currentPlayer == s.currentPlayer
    ensures t.phase == s.phase && t.history == s.history && t.gameId == s.gameId
    ensures CardsInPlay(t) + DiscardCards(s.topDiscard) == CardsInPlay(s)
  {
    assert s.drawPile == [s.drawPile[0]] + s.drawPile[1..];
    s.(drawPile := s.drawPile[1..], drawPileCount := |s.drawPile[1..]|, topDiscard := Some(s.drawPile[0]))
  }

  /** `draw_discard_swap`: slot `k` of player `i` and the discard top trade
      places; the slot's new card is visible. */
  function SwapWithDiscard(s: GameState, i: nat, k: nat): (t: GameState)
    requires i < |s.players| && k < |s.players[i].hand| && s.topDiscard.Some?
    ensures OnlySlotChanged(s.players, t.players, i, k)
    ensures t.players[i].hand[k] == Slot(s.topDiscard.value, true)
    ensures t.topDiscard == Some(s.players[i].hand[k].card)
    ensures t.drawPile == s.drawPile && t.drawPileCount == s.drawPileCount
    ensures t.currentPlayer == s.currentPlayer && t.phase == s.phase
    ensures t.history == s.history && t.gameId == s.gameId
    ensures CardsInPlay(t) == CardsInPlay(s)
  {
    var p := s.players[i];
    var t := s.(players := s.players[i := p.(hand := p.hand[k := Slot(s.topDiscard.value, true)])],
                topDiscard := Some(p.hand[k].card));
    SwapKeepsCards(s, i, k, t);
    t
  }

  lemma SwapKeepsCards(s: GameState, i: nat, k: nat, t: GameState)
    requires i < |s.players| && k < |s.players[i].hand| && s.topDiscard.Some?
    requires var p := s.players[i];
             t == s.(players := s.players[i := p.(hand := p.hand[k := Slot(s.topDiscard.value, true)])],
                     topDiscard := Some(p.hand[k].card))
    ensures CardsInPlay(t) == CardsInPlay(s)
  {
    var p := s.players[i];
    var h := p.hand[k := Slot(s.topDiscard.value, true)];
    var d, c := s.topDiscard.value, p.hand[k].card;
    assert CardsOf(h) == CardsOf(p.hand)[k := d];
    TableCardsUpdate(s.players, i, p.(hand := h));
    var before, after := multiset(CardsOf(p.hand)), multiset(CardsOf(h));
    assert after + multiset{c} == before + multiset{d};
    Exchange(TableCards(t.players), TableCards(s.players), before, after, multiset{c}, multiset{d});
    assert CardsInPlay(t) == multiset(s.drawPile) + (TableCards(t.players) + multiset{c});
    assert CardsInPlay(s) == multiset(s.drawPile) + (TableCards(s.players) + multiset{d});
  }

  /** `peek`: slot `k` of player `i` becomes visible. */
  function PeekAt(s: GameState, i: nat, k: nat): (t: GameState)
    requires i < |s.players| && k < |s.players[i].hand|
    ensures OnlySlotChanged(s.players, t.players, i, k)
    ensures t.players[i].hand[k] == Slot(s.players[i].hand[k].card, true)
    ensures t.drawPile == s.drawPile && t.drawPileCount == s.drawPileCount
    ensures t.topDiscard == s.topDiscard
    ensures t.currentPlayer == s.currentPlayer && t.phase == s.phase
    ensures t.history == s.history && t.gameId == s.gameId
    ensures s.players[i].hand[k].visible ==> t.players == s.players
    ensures CardsInPlay(t) == CardsInPlay(s)
  {
    var p := s.players[i];
    var h := p.hand[k := p.hand[k].(visible := true)];
    var ps := s.players[i := p.(hand := h)];
    assert CardsOf(h) == CardsOf(p.hand);
    TableCardsUpdate(s.players, i, p.(hand := h));
    Exchange(TableCards(ps), TableCards(s.players), multiset(CardsOf(p.hand)), multiset(CardsOf(h)),
             multiset{}, multiset{});
    assert TableCards(ps) + multiset{} == TableCards(ps);
    assert TableCards(s.players) + multiset{} == TableCards(s.players);
    assert p.hand[k].visible ==> ps == s.players by {
      if p.hand[k].visible {
        assert h == p.hand;
      }
    }
    s.(players := ps)
  }

  /** The sum of the values of the cards in a hand, shown or not. */
  function HandValue(h: seq<Slot>): (v: nat)
    ensures v <= 12 * |h|
    ensures (forall j :: 0 <= j < |h| ==> h[j].card.rank == King) <==> v == 0
  {
    if h == [] then 0 else Value(h[0].card) + HandValue(h[1..])
  }

  /** A 4-slot hand scores the sum of its four card values. */
  lemma HandValueOfFour(h: seq<Slot>)
    requires |h| == HandSize
    ensures HandValue(h) == Value(h[0].card) + Value(h[1].card) + Value(h[2].card) + Value(h[3].card)
  {
    var h1 := h[1..];
    var h2 := h1[1..];
    var h3 := h2[1..];
    assert h3[1..] == [];
    assert HandValue(h3) == Value(h[3].card);
    assert HandValue(h2) == Value(h[2].card) + HandValue(h3);
    assert HandValue(h1) == Value(h[1].card) + HandValue(h2);
  }

  function Revealed(h: seq<Slot>): seq<Slot>
  {
    seq(|h|, j requires 0 <= j < |h| => h[j].(visible := true))
  }

  /** `call_cambio`, before logging: every slot of every player is shown and
      every player is scored on the true values of their cards. */
  function RevealAndScore(s: GameState): (t: GameState)
    ensures SameSeating(s.players, t.players)
    ensures forall j, l :: 0 <= j < |s.players| && 0 <= l < |s.players[j].hand| ==>
              t.players[j].hand[l] == Slot(s.players[j].hand[l].card, true)
    ensures forall j :: 0 <= j < |s.players| ==> t.players[j].score == HandValue(s.players[j].hand)
    ensures t.drawPile == s.drawPile && t.drawPileCount == s.drawPileCount
    ensures t.topDiscard == s.topDiscard && t.currentPlayer == s.currentPlayer
    ensures t.history == s.history && t.gameId == s.gameId
    ensures t.phase == s.phase && t.variant == s.variant
    ensures CardsInPlay(t) == CardsInPlay(s)
  {
    var ps := seq(|s.players|, j requires 0 <= j < |s.players| =>
                s.players[j].(hand := Revealed(s.players[j].hand), score := HandValue(s.players[j].hand)));
    assert forall j :: 0 <= j < |ps| ==> CardsOf(ps[j].hand) == CardsOf(s.players[j].hand);
    TableCardsSame(s.players, ps);
    s.(players := ps)
  }

  // ---------------------------------------------------------------------------
  // Applying a move

  /** Appends the record of a move by the current player. */
  function Logged(s: GameState, action: string): GameState
  {
    s.(history := s.history + [Record(|s.history| + 1, s.currentPlayer, action)])
  }

  /** The id of the player after the one at position `i`, wrapping to the first. */
  function NextId(ps: seq<Player>, i: nat): string
    requires i < |ps|
  {
    ps[(i + 1) % |ps|].id
  }

  /** The cards a move takes out of play: the previous discard top, when the
      move is a draw from the deck; nothing otherwise. */
  function Removed(s: GameState, m: Move): multiset<Card>
  {
    if KindOf(m.kind).DrawDeck? then DiscardCards(s.topDiscard) else multiset{}
  }

  /** The bookkeeping after a non-terminal move: log it for the player who
      made it, then pass the turn to the next player in list order. */
  function PassTurn(s: GameState, t: GameState, action: string): (u: GameState)
    requires Inv(s)
    requires SameSeating(s.players, t.players) && t.drawPileCount == |t.drawPile|
    requires t.currentPlayer == s.currentPlayer && t.history == s.history
    ensures Inv(u)
    ensures u.history == s.history + [Record(|s.history| + 1, s.currentPlayer, action)]
    ensures u.currentPlayer == NextId(s.players, CurrentIndex(s))
    ensures CurrentIndex(u) == (CurrentIndex(s) + 1) % |s.players|
    ensures u.players == t.players && u.drawPile == t.drawPile && u.topDiscard == t.topDiscard
    ensures u.phase == t.phase && u.gameId == t.gameId && u.variant == t.variant
  {
    var i := CurrentIndex(s);
    var u := Logged(t, action).(currentPlayer := NextId(t.players, i));
    assert Ids(u.players) == Ids(s.players);
    IndexOfDistinct(Ids(u.players), (i + 1) % |s.players|);
    u
  }

  /** `call_cambio`: reveal and score everything, log the call, end the round;
      the turn does not pass. */
  function EndRound(s: GameState): (u: GameState)
    requires Inv(s)
    ensures Inv(u)
    ensures u.phase.RoundEnd?
    ensures u.history == s.history + [Record(|s.history| + 1, s.currentPlayer, "called Cambio!")]
    ensures u.currentPlayer == s.currentPlayer
    ensures SameSeating(s.players, u.players)
    ensures forall j, l :: 0 <= j < |s.players| && 0 <= l < |s.players[j].hand| ==>
              u.players[j].hand[l] == Slot(s.players[j].hand[l].card, true)
    ensures forall j :: 0 <= j < |s.players| ==> u.players[j].score == HandValue(s.players[j].hand)
    ensures u.drawPile == s.drawPile && u.topDiscard == s.topDiscard
    ensures u.gameId == s.gameId && u.variant == s.variant
    ensures CardsInPlay(u) == CardsInPlay(s)
  {
    var u := Logged(RevealAndScore(s), "called Cambio!").(phase := RoundEnd);
    SameSeatingKeepsInv(s, u);
    u
  }

  const SwapAction: string := "drew from discard and swapped slot "
  const PeekAction: string := "peeked at slot "

  /** How the log describes an accepted move: a fixed text for `draw_deck`
      and `call_cambio`, and for the two slot moves a fixed text followed by
      the slot number, which can be read back from the record. A move of
      unknown type is refused before anything is logged, so it has no text. */
  function Description(m: Move): (d: string)
    requires !KindOf(m.kind).UnknownKind?
    requires KindOf(m.kind) in {DrawDiscardSwap, Peek} ==> SlotInRange(m.slot)
    ensures KindOf(m.kind).DrawDeck? ==> d == "drew from deck"
    ensures KindOf(m.kind).CallCambio? ==> d == "called Cambio!"
    ensures KindOf(m.kind).DrawDiscardSwap? ==>
              && |d| == |SwapAction| + 1 && d[..|SwapAction|] == SwapAction
              && Decimal.FromDecimal(d[|SwapAction|..]) == Some(m.slot.value)
    ensures KindOf(m.kind).Peek? ==>
              && |d| == |PeekAction| + 1 && d[..|PeekAction|] == PeekAction
              && Decimal.FromDecimal(d[|PeekAction|..]) == Some(m.slot.value)
  {
    match KindOf(m.kind)
    case DrawDiscardSwap =>
      var n := Decimal.ToDecimal(m.slot.value);
      Decimal.FromToDecimal(m.slot.value);
      assert (SwapAction + n)[|SwapAction|..] == n;
      SwapAction + n
    case Peek =>
      var n := Decimal.ToDecimal(m.slot.value);
      Decimal.FromToDecimal(m.slot.value);
      assert (PeekAction + n)[|PeekAction|..] == n;
      PeekAction + n
    case CallCambio => "called Cambio!"
    case DrawDeck => "drew from deck"
  }

  /** A validated move other than `call_cambio`: its effect on the cards,
      one log record, and the turn passed on. */
  function Execute(s: GameState, m: Move): (t: GameState)
    requires Inv(s) && Validate(s, m).Accept? && !KindOf(m.kind).CallCambio?
    ensures Inv(t)
    ensures t.history == s.history + [Record(|s.history| + 1, s.currentPlayer, Description(m))]
    ensures t.currentPlayer == NextId(s.players, CurrentIndex(s))
    ensures CurrentIndex(t) == (CurrentIndex(s) + 1) % |s.players|
    ensures t.phase.AwaitingAction?
    ensures SameSeating(s.players, t.players)
    ensures t.gameId == s.gameId && t.variant == s.variant
    ensures CardsInPlay(t) + Removed(s, m) == CardsInPlay(s)
  {
    var i := CurrentIndex(s);
    match KindOf(m.kind)
    case DrawDeck => PassTurn(s, DrawFromDeck(s), Description(m))
    case DrawDiscardSwap => PassTurn(s, SwapWithDiscard(s, i, m.slot.value), Description(m))
    case Peek => PassTurn(s, PeekAt(s, i, m.slot.value), Description(m))
  }

  /** Validate, then apply. A rejected move yields its reason and no state;
      an accepted move logs one record, and every move but `call_cambio`
      passes the turn to the next player in list order. */
  function Step(s: GameState, m: Move): (r: Outcome)
    requires Inv(s)
    ensures r.Rejected? <==> Validate(s, m).Reject?
    ensures r.Rejected? ==> r.reason == Validate(s, m).reason
    ensures r.Accepted? ==> Inv(r.state)
    ensures r.Accepted? ==>
              r.state.history == s.history + [Record(|s.history| + 1, s.currentPlayer, Description(m))]
    ensures r.Accepted? ==> (r.roundEnd <==> KindOf(m.kind).CallCambio?)
    ensures r.Accepted? ==> (r.state.phase.RoundEnd? <==> r.roundEnd)
    ensures r.Accepted? ==>
              r.state.currentPlayer == if r.roundEnd then s.currentPlayer else NextId(s.players, CurrentIndex(s))
  {
    match Validate(s, m)
    case Reject(reason) => Rejected(reason)
    case Accept =>
      if KindOf(m.kind).CallCambio? then Accepted(EndRound(s), true)
      else Accepted(Execute(s, m), false)
  }

  /** An accepted move keeps the players, their order and their hand sizes,
      and the game's identity. */
  lemma StepKeepsSeating(s: GameState, m: Move)
    requires Inv(s) && Step(s, m).Accepted?
    ensures SameSeating(s.players, Step(s, m).state.players)
    ensures Step(s, m).state.gameId == s.gameId && Step(s, m).state.variant == s.variant
  {
  }

  /** The turn moves one position on in list order, wrapping at the end. */
  lemma StepRotatesTurn(s: GameState, m: Move)
    requires Inv(s) && Step(s, m).Accepted? && !Step(s, m).roundEnd
    ensures CurrentIndex(Step(s, m).state) == (CurrentIndex(s) + 1) % |s.players|
  {
  }

  /** An accepted move neither creates nor duplicates a card: what is in
      play afterwards, plus what the move took out of play, is what was in
      play before. */
  lemma StepConservesCards(s: GameState, m: Move)
    requires Inv(s) && Step(s, m).Accepted?
    ensures CardsInPlay(Step(s, m).state) + Removed(s, m) == CardsInPlay(s)
  {
  }

  /** `draw_deck` on an open round with a non-empty pile is accepted: the
      front card of the pile becomes the discard top and no hand changes. */
  lemma DrawDeckEffect(s: GameState, m: Move)
    requires Inv(s) && KindOf(m.kind).DrawDeck? && s.phase.AwaitingAction? && s.drawPileCount > 0
    ensures Step(s, m).Accepted? && !Step(s, m).roundEnd
    ensures var t := Step(s, m).state;
            && t.drawPile == s.drawPile[1..] && t.drawPileCount == s.drawPileCount - 1
            && t.topDiscard == Some(s.drawPile[0])
            && t.players == s.players
  {
    assert Validate(s, m).Accept?;
    assert Step(s, m).state == PassTurn(s, DrawFromDeck(s), Description(m));
  }

  /** `draw_discard_swap` on slot `k` (0 to 3) with a card on the discard pile
      is accepted: that card lands face up in slot `k` of the mover's hand,
      the slot's old card becomes the discard top, nothing else changes. */
  lemma SwapEffect(s: GameState, m: Move)
    requires Inv(s) && KindOf(m.kind).DrawDiscardSwap? && s.phase.AwaitingAction?
    requires s.topDiscard.Some? && SlotInRange(m.slot)
    ensures Step(s, m).Accepted? && !Step(s, m).roundEnd
    ensures var t := Step(s, m).state; var i, k := CurrentIndex(s), m.slot.value;
            && OnlySlotChanged(s.players, t.players, i, k)
            && t.players[i].hand[k] == Slot(s.topDiscard.value, true)
            && t.topDiscard == Some(s.players[i].hand[k].card)
            && t.drawPile == s.drawPile
  {
    assert Validate(s, m).Accept?;
    var i := CurrentIndex(s);
    assert Step(s, m).state == PassTurn(s, SwapWithDiscard(s, i, m.slot.value), Description(m));
  }

  /** `peek` at slot `k` (0 to 3) is accepted: that slot of the mover's hand
      becomes visible, with the same card, and nothing else changes. */
  lemma PeekEffect(s: GameState, m: Move)
    requires Inv(s) && KindOf(m.kind).Peek? && s.phase.AwaitingAction? && SlotInRange(m.slot)
    ensures Step(s, m).Accepted? && !Step(s, m).roundEnd
    ensures var t := Step(s, m).state; var i, k := CurrentIndex(s), m.slot.value;
            && OnlySlotChanged(s.players, t.players, i, k)
            && t.players[i].hand[k] == Slot(s.players[i].hand[k].card, true)
            && t.topDiscard == s.topDiscard && t.drawPile == s.drawPile
  {
    assert Validate(s, m).Accept?;
    var i := CurrentIndex(s);
    assert Step(s, m).state == PassTurn(s, PeekAt(s, i, m.slot.value), Description(m));
  }

  /** `call_cambio` on an open round is accepted and ends it: every card is
      shown, every player is scored on their hand, the piles stay. */
  lemma CallCambioEffect(s: GameState, m: Move)
    requires Inv(s) && KindOf(m.kind).CallCambio? && s.phase.AwaitingAction?
    ensures Step(s, m).Accepted? && Step(s, m).roundEnd
    ensures var t := Step(s, m).state;
            && (forall j, l :: 0 <= j < |s.players| && 0 <= l < |s.players[j].hand| ==>
                  t.players[j].hand[l] == Slot(s.players[j].hand[l].card, true))
            && (forall j :: 0 <= j < |s.players| ==> t.players[j].score == HandValue(s.players[j].hand))
            && t.drawPile == s.drawPile && t.topDiscard == s.topDiscard
  {
    assert Validate(s, m).Accept?;
    assert Step(s, m).state == EndRound(s);
  }

  /** A hand's value depends on its cards only, not on which are shown. */
  lemma {:induction false} HandValueOfCards(h: seq<Slot>, g: seq<Slot>)
    requires |h| == |g| && forall l :: 0 <= l < |h| ==> h[l].card == g[l].card
    ensures HandValue(h) == HandValue(g)
    decreases |h|
  {
    if h != [] {
      HandValueOfCards(h[1..], g[1..]);
    }
  }
}

=== FILE: rounds.dfy ===
/** Sequences of moves submitted to one game, and what holds across them. */
module Rounds {
  import opened Wrappers
  import opened Cards
  import opened Game
  import Decimal

  const DrawDeckRequest: Move := Move(Some("draw_deck"), None)
  const CallCambioRequest: Move := Move(Some("call_cambio"), None)

  function PeekRequest(k: int): Move
  {
    Move(Some("peek"), Some(k))
  }

  /** The state after submitting one move: the new state if it is accepted,
      the same state if it is refused. */
  function After(s: GameState, m: Move): (t: GameState)
    requires Inv(s)
    ensures Inv(t)
    ensures |s.history| <= |t.history| && t.history[..|s.history|] == s.history
    ensures s.phase.RoundEnd? ==> t == s
  {
    var r := Step(s, m);
    if r.Accepted? then r.state else s
  }

  /** What one submitted move takes out of play. */
  function RemovedBy(s: GameState, m: Move): (x: multiset<Card>)
    requires Inv(s)
    ensures CardsInPlay(After(s, m)) + x == CardsInPlay(s)
  {
    if Step(s, m).Accepted? then StepConservesCards(s, m); Removed(s, m) else multiset{}
  }

  /** The state after submitting `moves` in order; a rejected move changes
      nothing, and nothing changes once the round has ended. */
  function Replay(s: GameState, moves: seq<Move>): (t: GameState)
    requires Inv(s)
    ensures Inv(t)
    ensures |s.history| <= |t.history| && t.history[..|s.history|] == s.history
    ensures s.phase.RoundEnd? ==> t == s
    decreases |moves|
  {
    if moves == [] then s
    else
      var u := After(s, moves[0]);
      var t := Replay(u, moves[1..]);
      assert t.history[..|s.history|] == t.history[..|u.history|][..|s.history|];
      t
  }

  /** How many of `moves` are accepted. */
  function AcceptedCount(s: GameState, moves: seq<Move>): nat
    requires Inv(s)
    decreases |moves|
  {
    if moves == [] then 0
    else (if Step(s, moves[0]).Accepted? then 1 else 0) + AcceptedCount(After(s, moves[0]), moves[1..])
  }

  /** The cards `moves` take out of play: the discard tops that draws from the deck cover. */
  function RemovedAlong(s: GameState, moves: seq<Move>): multiset<Card>
    requires Inv(s)
    decreases |moves|
  {
    if moves == [] then multiset{}
    else RemovedBy(s, moves[0]) + RemovedAlong(After(s, moves[0]), moves[1..])
  }

  /** The log grows by exactly one record per accepted move. */
  lemma {:induction false} HistoryCountsAcceptedMoves(s: GameState, moves: seq<Move>)
    requires Inv(s)
    ensures |Replay(s, moves).history| == |s.history| + AcceptedCount(s, moves)
    decreases |moves|
  {
    if moves != [] {
      HistoryCountsAcceptedMoves(After(s, moves[0]), moves[1..]);
    }
  }

  /** No card is created or duplicated: what is in play at the end, together
      with what was taken out of play, is what was in play at the start. */
  lemma {:induction false} CardsConserved(s: GameState, moves: seq<Move>)
    requires Inv(s)
    ensures CardsInPlay(Replay(s, moves)) + RemovedAlong(s, moves) == CardsInPlay(s)
    decreases |moves|
  {
    if moves != [] {
      var u, x := After(s, moves[0]), RemovedBy(s, moves[0]);
      CardsConserved(u, moves[1..]);
      var t, y := Replay(u, moves[1..]), RemovedAlong(u, moves[1..]);
      assert CardsInPlay(t) + (x + y) == (CardsInPlay(t) + y) + x;
    }
  }

  /** In a game dealt from a shuffled deck, after any moves, each of the 52
      cards is either in play exactly once or was taken out of play exactly once. */
  lemma EveryCardAccountedFor(gameId: string, names: seq<string>, deck: seq<Card>, moves: seq<Move>, c: Card)
    requires IsShuffle(deck) && Deal(gameId, names, deck).Success?
    ensures var s := Deal(gameId, names, deck).value;
            CardsInPlay(Replay(s, moves))[c] + RemovedAlong(s, moves)[c] == 1
  {
    var s := Deal(gameId, names, deck).value;
    CardsConserved(s, moves);
    ShuffleHoldsEachCardOnce(deck, c);
    assert (CardsInPlay(Replay(s, moves)) + RemovedAlong(s, moves))[c] == multiset(deck)[c];
  }

  /** Once the round has ended every move is refused with the same reason. */
  lemma RoundEndIsTerminal(s: GameState, m: Move)
    requires Inv(s) && s.phase.RoundEnd?
    ensures Step(s, m) == Rejected("Round has ended")
  {
  }

  /** With two players the turn alternates between them after every
      accepted move other than the call of Cambio. */
  lemma TwoPlayersAlternate(s: GameState, m: Move)
    requires Inv(s) && |s.players| == 2
    requires Step(s, m).Accepted? && !Step(s, m).roundEnd
    ensures s.currentPlayer == s.players[0].id ==> Step(s, m).state.currentPlayer == s.players[1].id
    ensures s.currentPlayer == s.players[1].id ==> Step(s, m).state.currentPlayer == s.players[0].id
  {
    OtherSeat(s);
  }

  lemma OtherSeat(s: GameState)
    requires Inv(s) && |s.players| == 2
    ensures s.currentPlayer == s.players[0].id ==> NextId(s.players, CurrentIndex(s)) == s.players[1].id
    ensures s.currentPlayer == s.players[1].id ==> NextId(s.players, CurrentIndex(s)) == s.players[0].id
  {
    var i := CurrentIndex(s);
    if s.currentPlayer == s.players[0].id {
      assert i == 0;
    } else if s.currentPlayer == s.players[1].id {
      assert i == 1;
    }
  }

  /** Peeking at a slot that is already visible changes no hand. */
  lemma PeekIdempotent(s: GameState, k: int)
    requires Inv(s) && Step(s, PeekRequest(k)).Accepted?
    requires s.players[CurrentIndex(s)].hand[k].visible
    ensures Step(s, PeekRequest(k)).state.players == s.players
  {
  }

  lemma PlayerIdsOfTwo()
    ensures PlayerId(0) == "p1" && PlayerId(1) == "p2"
  {
    assert Decimal.ToDecimal(1) == "1";
    assert Decimal.ToDecimal(2) == "2";
  }

  // A two-player round with the default names, one move at a time: the deal,
  // p1 draws from the deck, p2 peeks at slot 1, p1 calls Cambio.

  /** With no names two default players are dealt; 44 cards stay in the pile,
      the ninth card of the deck on top. */
  lemma OpeningDeal(gameId: string, deck: seq<Card>)
    requires IsShuffle(deck)
    ensures |deck| == 52 && Deal(gameId, [], deck).Success?
    ensures var s0 := Deal(gameId, [], deck).value;
            && Inv(s0) && |s0.players| == 2 && s0.phase.AwaitingAction? && |s0.history| == 0
            && s0.currentPlayer == s0.players[0].id == "p1" && s0.players[1].id == "p2"
            && s0.drawPileCount == 44 && s0.drawPile[0] == deck[8]
  {
    ShuffleHoldsEachCardOnce(deck, Card(Ace, Hearts));
    PlayerIdsOfTwo();
    assert Names([]) == DefaultNames;
  }

  /** The first player draws from the deck: the pile shrinks by one, its top
      card becomes the discard top, and the turn passes to the second player. */
  lemma OpeningDraw(s0: GameState)
    requires Inv(s0) && |s0.players| == 2 && s0.phase.AwaitingAction? && s0.drawPileCount > 0
    requires s0.currentPlayer == s0.players[0].id
    ensures Step(s0, DrawDeckRequest).Accepted? && !Step(s0, DrawDeckRequest).roundEnd
    ensures var s1 := Step(s0, DrawDeckRequest).state;
            && Inv(s1) && s1.phase.AwaitingAction? && s1.players == s0.players
            && s1.drawPileCount == s0.drawPileCount - 1 && s1.topDiscard == Some(s0.drawPile[0])
            && |s1.history| == |s0.history| + 1 && s1.currentPlayer == s0.players[1].id
  {
    DrawDeckEffect(s0, DrawDeckRequest);
    OtherSeat(s0);
  }

  /** The second player peeks at their slot 1: it becomes visible, no card
      moves, and the turn returns to the first player. */
  lemma SecondPeek(s1: GameState)
    requires Inv(s1) && |s1.players| == 2 && s1.phase.AwaitingAction?
    requires s1.currentPlayer == s1.players[1].id
    ensures Step(s1, PeekRequest(1)).Accepted? && !Step(s1, PeekRequest(1)).roundEnd
    ensures var s2 := Step(s1, PeekRequest(1)).state;
            && Inv(s2) && s2.phase.AwaitingAction? && |s2.players| == 2
            && s2.players[1].hand[1].visible
            && (forall j, l :: 0 <= j < 2 && 0 <= l < HandSize ==>
                  s2.players[j].hand[l].card == s1.players[j].hand[l].card)
            && |s2.history| == |s1.history| + 1 && s2.currentPlayer == s1.players[0].id
  {
    PeekEffect(s1, PeekRequest(1));
    OtherSeat(s1);
  }

  /** Calling Cambio on a two-player table ends the round with every card
      shown and each player scored on the cards in their hand. */
  lemma ClosingCall(s2: GameState)
    requires Inv(s2) && s2.phase.AwaitingAction? && |s2.players| == 2
    ensures Step(s2, CallCambioRequest).Accepted? && Step(s2, CallCambioRequest).roundEnd
    ensures var s3 := Step(s2, CallCambioRequest).state;
            && s3.phase.RoundEnd? && |s3.history| == |s2.history| + 1 && |s3.players| == 2
            && (forall j, l :: 0 <= j < 2 && 0 <= l < HandSize ==> s3.players[j].hand[l].visible)
            && (forall j :: 0 <= j < 2 ==> s3.players[j].score == HandValue(s2.players[j].hand))
  {
    CallCambioEffect(s2, CallCambioRequest);
    StepKeepsSeating(s2, CallCambioRequest);
  }
}

=== FILE: sequences.dfy ===
/** Small facts about sequences used throughout the model. */
module Sequences {

  /** No element occurs twice. */
  predicate Distinct<T(==)>(xs: seq<T>)
  {
    forall i, j :: 0 <= i < j < |xs| ==> xs[i] != xs[j]
  }

  /** The first position of `x` in `xs` (Python's `list.index`). */
  function IndexOf<T(==)>(xs: seq<T>, x: T): (i: nat)
    requires x in xs
    ensures i < |xs| && xs[i] == x
    ensures forall j :: 0 <= j < i ==> xs[j] != x
  {
    if xs[0] == x then 0 else 1 + IndexOf(xs[1..], x)
  }

  /** In a sequence without repetitions the first position of an element is its only one. */
  lemma IndexOfDistinct<T>(xs: seq<T>, i: nat)
    requires Distinct(xs) && i < |xs|
    ensures IndexOf(xs, xs[i]) == i
  {
    var k := IndexOf(xs, xs[i]);
    assert xs[k] == xs[i];
  }

  /** A sequence without repetitions holds each of its elements exactly once. */
  lemma {:induction false} DistinctCount<T>(xs: seq<T>, x: T)
    requires Distinct(xs)
    ensures multiset(xs)[x] == if x in xs then 1 else 0
    decreases |xs|
  {
    if xs != [] {
      assert xs == [xs[0]] + xs[1..];
      assert Distinct(xs[1..]) by {
        forall i, j | 0 <= i < j < |xs[1..]| ensures xs[1..][i] != xs[1..][j] {
          assert xs[1..][i] == xs[i + 1] && xs[1..][j] == xs[j + 1];
        }
      }
      DistinctCount(xs[1..], x);
      if x == xs[0] {
        assert forall j :: 0 <= j < |xs[1..]| ==> xs[1..][j] == xs[j + 1] != xs[0];
        assert x !in xs[1..];
      }
    }
  }
}

=== FILE: store.dfy ===
/** The in-memory game store: a map from game id to game state, with the
    entry points that create a game, read it back, validate a move and
    apply a move. Every entry point returns new values, so a caller never
    holds an alias into the store. */
module Store {
  import opened Wrappers
  import opened Cards
  import opened Game

  type Games = map<string, GameState>

  /** Every stored game satisfies the state invariant. */
  predicate Good(games: Games)
  {
    forall id :: id in games ==> Inv(games[id])
  }

  datatype Created = Created(games: Games, gameId: string)

  /** `create_game`: deal from `deck` and store the game under `gameId`. The
      id and the shuffled deck are supplied by the caller; an id already in
      use is overwritten, as a dictionary assignment does. */
  function CreateGame(games: Games, gameId: string, names: seq<string>, deck: seq<Card>): (r: Result<Created>)
    ensures r.Failure? <==> HandSize * |Names(names)| > |deck|
    ensures r.Success? ==>
              && r.value.gameId == gameId
              && r.value.games.Keys == games.Keys + {gameId}
              && Deal(gameId, names, deck) == Success(r.value.games[gameId])
              && forall id :: id in games && id != gameId ==> r.value.games[id] == games[id]
  {
    var d := Deal(gameId, names, deck);
    if d.Failure? then Failure(d.error) else Success(Created(games[gameId := d.value], gameId))
  }

  /** With a full shuffled deck a game can be created for up to 13 players,
      and the pile holds the 52 cards less four per player. */
  lemma CreateGameCapacity(games: Games, gameId: string, names: seq<string>, deck: seq<Card>)
    requires IsShuffle(deck)
    ensures CreateGame(games, gameId, names, deck).Success? <==> |Names(names)| <= 13
    ensures CreateGame(games, gameId, names, deck).Success? ==>
              var s := CreateGame(games, gameId, names, deck).value.games[gameId];
              s.drawPileCount + HandSize * |s.players| == 52
  {
    ShuffleHoldsEachCardOnce(deck, Card(Ace, Hearts));
  }

  /** Creating a game keeps every stored game well formed. */
  lemma CreateGameKeepsGood(games: Games, gameId: string, names: seq<string>, deck: seq<Card>)
    requires Good(games) && CreateGame(games, gameId, names, deck).Success?
    ensures Good(CreateGame(games, gameId, names, deck).value.games)
  {
  }

  /** `get_state`: the stored state, or nothing for an unknown id. */
  function GetState(games: Games, gameId: string): (r: Option<GameState>)
    ensures r.None? <==> gameId !in games
    ensures r.Some? ==> r.value == games[gameId]
  {
    if gameId in games then Some(games[gameId]) else None
  }

  /** A game just created reads back as the freshly dealt state. */
  lemma GetStateAfterCreate(games: Games, gameId: string, names: seq<string>, deck: seq<Card>)
    requires CreateGame(games, gameId, names, deck).Success?
    ensures var c := CreateGame(games, gameId, names, deck).value;
            GetState(c.games, c.gameId) == Some(Deal(gameId, names, deck).value)
  {
  }

  /** `validate_move`: an unknown game is refused first, then the state's own
      rules apply. It reads the store and changes nothing. */
  function ValidateMove(games: Games, gameId: string, m: Move): (v: Verdict)
    ensures gameId !in games ==> v == Reject("Game not found")
    ensures gameId in games ==> v == Validate(games[gameId], m)
  {
    if gameId !in games then Reject("Game not found") else Validate(games[gameId], m)
  }

  datatype Response = Invalid(reason: string) | Valid(state: GameState, roundEnd: bool)

  datatype Applied = Applied(games: Games, response: Response)

  /** `apply_move`: validate, then apply to the stored game and store the
      result. The caller gets the new state and, for `call_cambio`, the
      round-end flag. */
  function ApplyMove(games: Games, gameId: string, m: Move): (r: Applied)
    requires gameId in games ==> Inv(games[gameId])
    ensures r.response.Invalid? <==> ValidateMove(games, gameId, m).Reject?
    ensures r.response.Invalid? ==>
              r.games == games && r.response.reason == ValidateMove(games, gameId, m).reason
    ensures r.response.Valid? ==>
              && gameId in games
              && Step(games[gameId], m) == Accepted(r.response.state, r.response.roundEnd)
              && r.games == games[gameId := r.response.state]
  {
    if gameId !in games then Applied(games, Invalid("Game not found"))
    else
      match Step(games[gameId], m)
      case Rejected(reason) => Applied(games, Invalid(reason))
      case Accepted(t, roundEnd) => Applied(games[gameId := t], Valid(t, roundEnd))
  }

  /** Applying a move keeps every stored game well formed. */
  lemma ApplyMoveKeepsGood(games: Games, gameId: string, m: Move)
    requires Good(games)
    ensures Good(ApplyMove(games, gameId, m).games)
  {
  }

  /** A move never touches another game, and the state handed back is the one
      that is stored. */
  lemma ApplyMoveIsolated(games: Games, gameId: string, m: Move, other: string)
    requires gameId in games ==> Inv(games[gameId])
    requires other != gameId
    ensures GetState(ApplyMove(games, gameId, m).games, other) == GetState(games, other)
    ensures var r := ApplyMove(games, gameId, m);
            r.response.Valid? ==> GetState(r.games, gameId) == Some(r.response.state)
  {
  }

  /** An accepted move logs exactly one record, numbered after the previous
      ones and naming the player whose turn it was; only `call_cambio`
      reports the end of the round. */
  lemma ApplyMoveLogsOnce(games: Games, gameId: string, m: Move)
    requires gameId in games ==> Inv(games[gameId])
    requires ApplyMove(games, gameId, m).response.Valid?
    ensures var s, t := games[gameId], ApplyMove(games, gameId, m).response.state;
            && |t.history| == |s.history| + 1
            && t.history[|s.history|] == Record(|s.history| + 1, s.currentPlayer, Description(m))
            && (ApplyMove(games, gameId, m).response.roundEnd <==> KindOf(m.kind).CallCambio?)
  {
  }
}

=== FILE: wrappers.dfy ===
/** Optional values and results that carry a failure reason. */
module Wrappers {

  /** A value that may be absent (Python's `None`). */
  datatype Option<+T> = None | Some(value: T)

  /** Either a value or the reason it could not be produced. */
  datatype Result<+T> = Success(value: T) | Failure(error: string)
}
